=== FILE: README.md ===
# Activity stopwatch and countdown gate, modelled in Dafny

This project models the logic of a small React app that has two parts.

- **The activity time-tracking engine** (`src/Stopwatch.jsx`). The user picks an activity tile, starts a stopwatch and stops it. The elapsed milliseconds are added to that activity's total for today.
  - The activity list can be extended: a new label gets a key derived from it by `makeActivityKey`.
  - Activities can be deleted, and today's totals can be reset.
  - The totals are shown as `HH:MM:SS`, as rounded minutes, and as bars scaled to the largest total.
- **The countdown gate** (`src/App.jsx`). Tapping an app tile opens an overlay that counts ten seconds down. "Continue" is enabled only when the count reaches 0.

The component state becomes one immutable `State` record. It holds the ordered activity list, today's totals as a `map<string, int>`, and a `Session` for `selected`, `running`, `startRef` and `elapsedMs`. Every handler is a pure function from state to state. The clock value `Date.now()` is a parameter `now`.

JavaScript's loose semantics are modelled where the code relies on them:
- `!selected` and `!deleteKey` hold for the empty string as well as for `null`.
- `next[selected]` with a `null` selection writes the property `"null"`.
- A `null` start instant counts as 0 in a subtraction.
- `x || 0` reads a key with no own entry in the totals as 0. The two keys that name inherited members of `Object.prototype` are an exception; see "## Left out".

Modules:

| file | module | contents |
|---|---|---|
| nullable.dfy | JsNull | `Nullable`, a value or JavaScript's `null` |
| decimal.dfy | Decimal | `String(n)`, `padStart(2, "0")` and a decimal reader used as their inverse |
| text.dfy | Text | `String.prototype.trim` over the ECMAScript white-space and line-terminator characters |
| slug.dfy | ActivitySlug | the slug pipeline of `makeActivityKey`: trim, lowercase, whitespace runs to `_`, drop all but `[a-z0-9_]` |
| activity_key.dfy | ActivityKey | `makeActivityKey`: the first free key among `base`, `base_2`, `base_3`, … |
| stopwatch.dfy | Stopwatch | the registry, the totals map, the session state machine, and their invariant |
| format.dfy | Format | `formatHMS` and the minutes branch of `formatMinutes` |
| bars.dfy | Bars | the `maxMs` memo and the bar percentage |
| countdown.dfy | Countdown | the countdown gate of `src/App.jsx` |

Behaviour of the code that the model keeps as it is:
- `addActivity` with an empty trimmed label or emoji returns without change. It raises no error.
- `addActivity` selects the new key.
- Nothing checks that a committed duration is non-negative. `now - startRef` is added as it is. Totals stay non-negative only while the clock does not step back, which is why they are `int` and not `nat`.
- The key slug turns only whitespace runs into `_`. Every other character outside `[a-z0-9_]` is removed, not replaced.
- Neither `addActivity` nor `deleteActivity` looks at `running`. The Add and Delete tiles are disabled while running. The Save and Delete buttons inside the modals are not, and the page behind a modal stays reachable from the keyboard. Both handlers are therefore modelled without a guard. The consequences are listed under "## Findings".

## Model

| member | source | states |
|---|---|---|
| ActivitySlug.Slug | src/Stopwatch.jsx:82-86 | the slug contains only `[a-z0-9_]` characters |
| ActivitySlug.LowerChar | src/Stopwatch.jsx:84 | one character lowercases to one or two characters; key characters are unchanged and an ASCII capital becomes the lowercase letter 32 code points above it |
| ActivitySlug.Lower | src/Stopwatch.jsx:84 | a single character is lowercased as LowerChar maps it, which with LowerAppend makes the text LowerChar applied character by character; the result is never shorter than the input and at most twice as long |
| ActivitySlug.LowerAppend | src/Stopwatch.jsx:84 | lowercasing works character by character, so it distributes over concatenation |
| ActivitySlug.CollapseSpaces | src/Stopwatch.jsx:85 | the result contains no white space and is no longer than the input |
| ActivitySlug.KeepKeyChars | src/Stopwatch.jsx:86 | the result holds only `[a-z0-9_]`, is no longer than the input, and keeps every key character of the input; a single character is kept exactly when it is a key character |
| ActivitySlug.KeepKeyCharsAppend | src/Stopwatch.jsx:86 | the filter works character by character, so it distributes over concatenation |
| ActivitySlug.SlugIdempotent | src/Stopwatch.jsx:82-86 | normalising an existing slug again leaves it unchanged |
| ActivitySlug.SlugOfKeyChars | src/Stopwatch.jsx:82-86 | a label already made of `[a-z0-9_]` is its own slug |
| ActivitySlug.SlugOfPlainLabel | src/Stopwatch.jsx:82-86 | a label with no surrounding white space whose lowercase form uses only `[a-z0-9_]` slugs to that lowercase form |
| ActivitySlug.SlugStudy | src/Stopwatch.jsx:82-86 | "Study" slugs to "study" |
| ActivitySlug.LowerKeepsKeyChars | src/Stopwatch.jsx:84 | lowercasing leaves `[a-z0-9_]` text unchanged |
| ActivitySlug.CollapseRun | src/Stopwatch.jsx:85 | a whitespace run between two words becomes exactly one `_` |
| Text.Trim | src/Stopwatch.jsx:83 | the result is the input minus its leading and trailing white space, and neither end is white space |
| Text.TrimIdempotent | src/Stopwatch.jsx:176-177 | trimming twice is the same as trimming once, so the second trim inside makeActivityKey of a label addActivity already trimmed changes nothing |
| Text.TrimNoOp | src/Stopwatch.jsx:83 | text without white space at either end is unchanged by trimming |
| ActivityKey.Root | src/Stopwatch.jsx:88 | the root is non-empty and made of key characters; it is the slug when the slug is non-empty and "activity" when it is empty |
| ActivityKey.Candidate | src/Stopwatch.jsx:88-91 | the first attempt is the root itself and every later attempt is the root followed by more characters |
| ActivityKey.CandidateInjective | src/Stopwatch.jsx:89-93 | distinct attempts of the loop produce distinct keys, so the loop never retries a key |
| ActivityKey.TakenBound | src/Stopwatch.jsx:90-93 | if the first `n` attempts are all taken there are at least `n` existing keys, so the loop ends |
| ActivityKey.FirstFreeFrom | src/Stopwatch.jsx:90-93 | the loop returns an untaken candidate, and every candidate before it is taken |
| ActivityKey.MakeActivityKey | src/Stopwatch.jsx:81-95 | the key is not among the existing keys, is non-empty, uses only `[a-z0-9_]`, and is the first free one of `base`, `base_2`, `base_3`, … |
| ActivityKey.FirstFreeUnique | src/Stopwatch.jsx:89-93 | the first free candidate is unique, so the description fixes the key |
| ActivityKey.MakeActivityKeyStudyFree | src/Stopwatch.jsx:81-95 | "Study" with no existing keys gives "study" |
| ActivityKey.MakeActivityKeyStudyTaken | src/Stopwatch.jsx:81-95 | "Study" with "study" taken gives "study_2" |
| Stopwatch.RemoveKey | src/Stopwatch.jsx:205 | an activity survives the filter exactly when its key differs from the deleted key |
| Stopwatch.RemoveKeyAppend | src/Stopwatch.jsx:205 | the filter keeps the survivors in their original relative order |
| Stopwatch.RemoveKeyUnique | src/Stopwatch.jsx:205 | with unique keys the filter removes exactly one entry when the key is listed, and keeps keys unique |
| Stopwatch.AddActivity | src/Stopwatch.jsx:175-186 | an empty trimmed label or emoji changes nothing; otherwise exactly one entry is appended with the fresh key from makeActivityKey, earlier entries and totals are unchanged, the new key is selected, and keys stay unique |
| Stopwatch.AddActivityPreservesInv | src/Stopwatch.jsx:175-186 | adding keeps unique keys, non-negative totals, a truthy selection while running and a listed selection, even when the stopwatch runs |
| Stopwatch.DeleteActivity | src/Stopwatch.jsx:201-218 | an empty key is a no-op; otherwise only entries with that key leave the list, the totals lose that key and nothing else, and the selection is cleared only if it was that key |
| Stopwatch.DeleteActivityPreservesInv | src/Stopwatch.jsx:201-218 | deleting while idle keeps the invariant |
| Stopwatch.DeleteWhileRunningBreaksInv | src/Stopwatch.jsx:201-218 | deleting the selected activity of a running stopwatch leaves it running with nothing selected, and the next stop books the session under "null" |
| Stopwatch.AddWhileRunningRetargets | src/Stopwatch.jsx:175-186 | adding while running keeps the invariant but moves the running session to the new key, so the next stop books the whole session there and nothing under the activity that was timed |
| Stopwatch.AddActivityWhenIdle | src/Stopwatch.jsx:175-186 | the add handler refused while running, as the disabled Add tile intends |
| Stopwatch.DeleteActivityWhenIdle | src/Stopwatch.jsx:201-218 | the delete handler refused while running, as the disabled Delete tile intends |
| Stopwatch.GuardedAddKeepsSession | src/Stopwatch.jsx:175-186 | with the guard, adding keeps the invariant, and a running session still books its time under the activity it started on |
| Stopwatch.GuardedDeleteKeepsSession | src/Stopwatch.jsx:201-218 | with the guard, deleting keeps the invariant from every well-formed state, and a running session still books its time under the activity it started on |
| Stopwatch.Select | src/Stopwatch.jsx:268-272 | choosing a listed tile while idle sets the selection and leaves every other field of the state unchanged |
| Stopwatch.SelectPreservesInv | src/Stopwatch.jsx:268-272 | a tile click keeps the invariant |
| Stopwatch.Start | src/Stopwatch.jsx:220-225 | start is a no-op without a selection or while running; otherwise the session runs from `now` with a zeroed display |
| Stopwatch.StartPreservesInv | src/Stopwatch.jsx:220-225 | start keeps the invariant: a running session has a truthy, listed selection and a start instant |
| Stopwatch.Tick | src/Stopwatch.jsx:153-155 | the display refresh shows `now - startRef` while running and changes nothing else |
| Stopwatch.TickPreservesInv | src/Stopwatch.jsx:153-155 | the display refresh keeps the invariant |
| Stopwatch.StopAndSave | src/Stopwatch.jsx:227-244 | idle is a no-op; otherwise `now - startRef` is added to the selection's total, with absent read as 0, every other total is unchanged, and the session ends idle with nothing selected |
| Stopwatch.StopAndSavePreservesInv | src/Stopwatch.jsx:227-244 | totals stay non-negative when the clock has not gone back behind the start instant |
| Stopwatch.StopIgnoresLastTick | src/Stopwatch.jsx:233 | the committed duration comes from the clock at stop time, not from the last display refresh |
| Stopwatch.SessionCommits | src/Stopwatch.jsx:220-244 | select, start at `t0` and stop at `t1` add `t1 - t0` to that key and to no other key |
| Stopwatch.TwoSessionsAccumulate | src/Stopwatch.jsx:235-239 | two sessions on one key add both durations; nothing is overwritten |
| Stopwatch.GymScenario | src/Stopwatch.jsx:220-244 | a 90 000 ms session on "gym" from empty totals leaves gym at 90 000 and the session idle |
| Stopwatch.ResetToday | src/Stopwatch.jsx:246-250 | reset is refused while running; otherwise the totals become the empty map, so every total reads 0 |
| Stopwatch.SessionAfterReset | src/Stopwatch.jsx:220-250 | resetting twice is resetting once, and one session after an idle reset leaves exactly that session's duration under its key and no other entry |
| Stopwatch.ResetTodayPreservesInv | src/Stopwatch.jsx:246-250 | reset keeps the invariant |
| Stopwatch.MountedInv | src/Stopwatch.jsx:123-142 | a freshly mounted tracker with unique keys and non-negative totals satisfies the invariant |
| Stopwatch.KeySet | src/Stopwatch.jsx:181 | the set holds the key of every listed activity and only those keys |
| Stopwatch.Total | src/Stopwatch.jsx:237 | a stored key reads its total and an absent key reads 0, so non-negative totals read non-negative |
| Stopwatch.Mounted | src/Stopwatch.jsx:123-142 | the mounted tracker holds the loaded list and totals, with nothing selected, not running, no start instant and a zero display |
| Format.Split | src/Stopwatch.jsx:32-35 | minutes and seconds are below 60, and hours·3600 + minutes·60 + seconds is the whole number of seconds |
| Format.SplitUnique | src/Stopwatch.jsx:32-35 | this is the only such decomposition |
| Format.FormatHMS | src/Stopwatch.jsx:31-37 | the text is an `H…H:MM:SS` display: at least two hour digits, then exactly two minute digits and two second digits, separated by colons; minutes and seconds read below 60, and hours of three or more digits have no leading zero |
| Format.RenderFields | src/Stopwatch.jsx:32-36 | every rendered clock is a display in normal form |
| Format.Render | src/Stopwatch.jsx:36 | three zero-padded fields joined by colons form a display |
| Format.RenderRoundTrip | src/Stopwatch.jsx:36 | reading the padded fields back gives hours·3600 + minutes·60 + seconds |
| Format.FormatHMSRoundTrip | src/Stopwatch.jsx:31-37 | reading the display back gives exactly the whole seconds of the input; only the sub-second part is lost |
| Format.FormatHMSNinetySeconds | src/Stopwatch.jsx:31-37 | 90 000 ms is shown as "00:01:30" |
| Format.RoundedMinutes | src/Stopwatch.jsx:40-41 | the result is the nearest whole minute, with a half minute rounded up |
| Format.FormatMinutes | src/Stopwatch.jsx:39-42 | below one hour the text is the rounded minutes followed by "m", written in digits with no leading zero |
| Format.FormatMinutesHalfUp | src/Stopwatch.jsx:41 | 30 000 ms shows as "1m" |
| Format.FormatMinutesJustBelowHalf | src/Stopwatch.jsx:41 | 29 999 ms shows as "0m" |
| Decimal.NatToString | src/Stopwatch.jsx:36 | `String(n)` is a non-empty string of digits, one digit exactly for n below 10, with no leading zero |
| Decimal.ParseNatToString | src/Stopwatch.jsx:36 | `String(n)` read back as decimal is `n` |
| Decimal.PadStart2 | src/Stopwatch.jsx:36 | padding prepends zeros up to length two, keeps the text at its end, and keeps a digit string a digit string |
| Decimal.ParsePadded | src/Stopwatch.jsx:36 | zero-padding to two digits does not change the value read back |
| Bars.MaxMs | src/Stopwatch.jsx:252-255 | the maximum is at least 1, at least every listed total, and is either 1 or some listed total |
| Bars.Pct | src/Stopwatch.jsx:392 | the percentage is clamped to 0..100, is exact for totals up to the maximum, is 100 at or above it and 0 at or below 0 |
| Bars.BarPct | src/Stopwatch.jsx:391-392 | every bar width lies within 0..100 |
| Bars.BarProportional | src/Stopwatch.jsx:391-392 | with non-negative totals every listed bar is exactly its share of the maximum |
| Bars.BarFullAtMax | src/Stopwatch.jsx:252-255 | the activity holding a positive maximum gets a full bar |
| Bars.WorkGymExample | src/Stopwatch.jsx:252-255 | work 1000 and gym 4000 give maxMs 4000 and bars of 25 and 100 |
| Countdown.Step | src/App.jsx:68-75 | a counter above 1 goes down by exactly one, a counter at 1 or below becomes 0, and the result is never negative and never above a non-negative input |
| Countdown.OpenWithFriction | src/App.jsx:47-51 | the overlay opens at ten seconds on the given target, with a fresh timer when it was closed |
| Countdown.Cancel | src/App.jsx:53-57 | the overlay closes and its timer is cleared |
| Countdown.Tick | src/App.jsx:66-76 | a tick does nothing without a timer; otherwise it applies the updater and clears the timer at 0 |
| Countdown.CanContinue | src/App.jsx:84 | the wait is over when the counter reads 0; on a well-formed open overlay that is exactly when no timer is running |
| Countdown.Continue | src/App.jsx:84 | "Continue" leads to the target exactly when the overlay is open and the counter is 0 |
| Countdown.ClosedGateCannotContinue | src/App.jsx:122-163 | a cancelled overlay has no Continue button, so it never navigates |
| Countdown.OpenPreservesInv | src/App.jsx:47-51 | opening a closed overlay gives a well-formed gate on which "Continue" is disabled |
| Countdown.CancelPreservesInv | src/App.jsx:53-57 | cancelling keeps the gate well formed |
| Countdown.TickPreservesInv | src/App.jsx:68-75 | a tick keeps the gate well formed and the counter never rises or goes below 0 |
| Countdown.StalledGateIsFrozen | src/App.jsx:53-57 | a gate with no timer armed, such as every cancelled gate, is not changed by any number of ticks |
| Countdown.TickNCounts | src/App.jsx:68-75 | `k` ticks on an open gate take the counter to `max(0, s - k)` |
| Countdown.TenTicksToContinue | src/App.jsx:63-84 | from a freshly opened gate, "Continue" is enabled after exactly ten ticks and not before, and the timer runs until then |
| Countdown.ReopenRestarts | src/App.jsx:47-57 | cancelling and reopening restarts the wait from ten seconds with a fresh timer |
| Countdown.ReopenWhileOpenStalls | src/App.jsx:63-82 | reopening an overlay that is open and finished resets the counter to 10 without a timer, so it never counts down again and "Continue" stays disabled |
| Countdown.OpenWithFrictionRearmed | src/App.jsx:47-51 | an open that always restarts the timer: open, ten seconds, the given target, a timer armed |
| Countdown.RearmedOpenCountsDown | src/App.jsx:47-84 | with the timer re-armed, every open from a well-formed gate, including an already open one, enables "Continue" after exactly ten ticks |

## Left out

- Rendering: JSX, CSS, the modals, `ActivityTile` and `IconTile` are presentation only.
- `localStorage` and JSON: `loadTotals`, `saveTotals`, `loadActivities` and `saveActivities` (src/Stopwatch.jsx:47-78) are I/O. The model takes the loaded list and totals as the arguments of `Stopwatch.Mounted`. The fallback to `{}` or to the default list is not modelled.
- `todayKey` (src/Stopwatch.jsx:23-29) reads the calendar. Totals are the totals of one day, and the model does not cover a day rollover while the page stays open.
- `Date.now`, `setInterval` and `clearInterval` are clock and timer plumbing. The clock is the parameter `now`. An interval firing is a call of `Stopwatch.Tick` or `Countdown.Tick`.
- `go` (src/App.jsx:59-61) is browser navigation. `Countdown.Continue` returns the target URL instead of loading it.
- `src/main.jsx` holds only routing and mount code.
- `openAddModal`, `closeAddModal`, `openDeleteModal` and `closeDeleteModal` only show or hide modals and preset input fields.
- Stopwatch.StopAndSave: keys that name members inherited from `Object.prototype` are not modelled. The label "Constructor" yields the key "constructor", and "__proto__" is a valid key too. In the source, `next[selected] || 0` reads the inherited `Object` function for "constructor" and stores a string. A write to "__proto__" goes to the prototype setter and is lost. The model stores a number for every key.
- Stopwatch.Total: the same two keys read as 0 in the model. In the source, `totals[k] || 0` returns the inherited member.
- Bars.MaxMs: for a listed key "constructor" or "__proto__", the source's `totals[a.key] || 0` is not a number, and `Math.max` and every bar width become NaN. The model reads 0 there and keeps `maxMs` a number of at least 1.
- Format.FormatMinutes: only the branch below one hour is modelled, with integer round-half-up. The hours branch uses floating-point division and `toFixed(1)`.
- Format.FormatHMS: takes a non-negative duration. A negative `elapsedMs`, possible when the clock steps back, is not modelled.
- Bars.Pct: exact rational arithmetic in place of IEEE double division.
- ActivitySlug.LowerChar: `toLowerCase` is modelled only as far as it can produce `[a-z0-9_]`: ASCII letters, U+0130 and U+212A. Every other character is passed through unchanged, and the filter removes it whatever its lowercase form.
- Stopwatch.Select: the tile-click guard, a listed key while idle, is a precondition. `setSelected` itself is unguarded, but the activity tiles are disabled buttons while running, so they can be neither clicked nor focused.

## Findings

| source | as written | input that shows it | evidently intended | confidence | as-written member | corrected member |
|---|---|---|---|---|---|---|
| src/Stopwatch.jsx:175-186 | `addActivity` does not check `running`, and the Save button (src/Stopwatch.jsx:319-326) is enabled while running | select "gym", open Add, type a label and an emoji, Tab to Start behind the modal and press it, then click Save | no activity is added during a run, as the disabled Add tile (src/Stopwatch.jsx:282) shows, so the session keeps timing "gym" | medium, not executed | Stopwatch.AddWhileRunningRetargets | Stopwatch.AddActivityWhenIdle |
| src/Stopwatch.jsx:201-218 | `deleteActivity` does not check `running`, and the Delete button (src/Stopwatch.jsx:353-359) is enabled while running | select "gym", open Delete and choose "gym", Tab to Start behind the modal and press it, click Delete, then Stop & Save | no activity is deleted during a run, as the disabled Delete tile shows, so the session is not left running with nothing selected and never booked under "null" | medium, not executed | Stopwatch.DeleteWhileRunningBreaksInv | Stopwatch.DeleteActivityWhenIdle |
| src/App.jsx:47-82 | reopening an open overlay resets the counter, but the timer is re-armed only when `open` changes | click TikTok, wait ten seconds, press Enter on the still-focused tile | every open restarts a ten-second countdown | medium, not executed; needs a browser that focuses a clicked button | Countdown.ReopenWhileOpenStalls | Countdown.OpenWithFrictionRearmed |

=== FILE: activity_key.dfy ===
/**
 * makeActivityKey (src/Stopwatch.jsx): the key of a new activity is the
 * first of `root`, `root_2`, `root_3`, ... that no existing activity uses,
 * where `root` is the label's slug, or `activity` when the slug is empty.
 */
module ActivityKey {
  import opened Decimal
  import opened ActivitySlug

  const DefaultRoot: string := "activity"

  /** `base || "activity"`. */
  function Root(text: string): (r: string)
    ensures |r| > 0
    ensures AllKeyChars(r)
    ensures Slug(text) != [] ==> r == Slug(text)
    ensures Slug(text) == [] ==> r == DefaultRoot
  {
    var base := Slug(text);
    if base == [] then DefaultRoot else base
  }

  /** The `n`-th key the loop tries: `root` first, then `root_n` for n = 2, 3, .... */
  function Candidate(root: string, n: nat): (key: string)
    requires 1 <= n
    ensures |root| <= |key|
    ensures key[..|root|] == root
    ensures |key| == |root| <==> n == 1
  {
    if n == 1 then root else root + "_" + NatToString(n)
  }

  lemma CandidatesKeyChars(root: string)
    requires AllKeyChars(root)
    ensures forall n :: 1 <= n ==> AllKeyChars(Candidate(root, n))
  {
  }

  /** Distinct attempts are distinct keys, so the loop never revisits a key. */
  lemma CandidateInjective(root: string, a: nat, b: nat)
    requires 1 <= a && 1 <= b
    requires Candidate(root, a) == Candidate(root, b)
    ensures a == b
  {
    if a != 1 && b != 1 {
      var ka, kb := Candidate(root, a), Candidate(root, b);
      assert NatToString(a) == ka[|root| + 1..];
      assert NatToString(b) == kb[|root| + 1..];
      NatToStringInjective(a, b);
    }
  }

  /** The first `n` candidates, as a set. */
  function CandidatesUpTo(root: string, n: nat): (s: set<string>)
    ensures forall k :: 1 <= k <= n ==> Candidate(root, k) in s
  {
    if n == 0 then {} else CandidatesUpTo(root, n - 1) + {Candidate(root, n)}
  }

  lemma {:induction false} CandidatesUpToOnly(root: string, n: nat, key: string)
    requires key in CandidatesUpTo(root, n)
    ensures exists k :: 1 <= k <= n && key == Candidate(root, k)
  {
    if key != Candidate(root, n) {
      CandidatesUpToOnly(root, n - 1, key);
    }
  }

  lemma {:induction false} CandidatesUpToSize(root: string, n: nat)
    ensures |CandidatesUpTo(root, n)| == n
  {
    if n > 0 {
      CandidatesUpToSize(root, n - 1);
      if Candidate(root, n) in CandidatesUpTo(root, n - 1) {
        CandidatesUpToOnly(root, n - 1, Candidate(root, n));
        var k :| 1 <= k <= n - 1 && Candidate(root, n) == Candidate(root, k);
        CandidateInjective(root, n, k);
      }
    }
  }

  lemma SubsetSize<T>(a: set<T>, b: set<T>)
    requires a <= b
    ensures |a| <= |b|
  {
    assert b == a + (b - a);
  }

  /** If the first `n` candidates are all taken, there are at least `n` taken keys. */
  lemma TakenBound(root: string, existing: set<string>, n: nat)
    requires forall k :: 1 <= k <= n ==> Candidate(root, k) in existing
    ensures n <= |existing|
  {
    CandidatesUpToSize(root, n);
    forall key | key in CandidatesUpTo(root, n)
      ensures key in existing
    {
      CandidatesUpToOnly(root, n, key);
    }
    SubsetSize(CandidatesUpTo(root, n), existing);
  }

  /** The first candidate, from the `n`-th on, that is not taken. */
  function FirstFreeFrom(root: string, existing: set<string>, n: nat): (key: string)
    requires 1 <= n
    requires forall k :: 1 <= k < n ==> Candidate(root, k) in existing
    ensures key !in existing
    ensures exists m :: (n <= m && key == Candidate(root, m) &&
                         forall k :: 1 <= k < m ==> Candidate(root, k) in existing)
    decreases |existing| + 1 - n
  {
    if Candidate(root, n) in existing then
      TakenBound(root, existing, n);
      FirstFreeFrom(root, existing, n + 1)
    else
      Candidate(root, n)
  }

  /**
   * makeActivityKey(label, existingKeys): never one of the existing keys,
   * never empty, made of `[a-z0-9_]` only, and the FIRST free candidate.
   */
  function MakeActivityKey(text: string, existing: set<string>): (key: string)
    ensures key !in existing
    ensures |key| > 0
    ensures AllKeyChars(key)
    ensures exists m :: (1 <= m && key == Candidate(Root(text), m) &&
                         forall k :: 1 <= k < m ==> Candidate(Root(text), k) in existing)
  {
    CandidatesKeyChars(Root(text));
    FirstFreeFrom(Root(text), existing, 1)
  }

  /** The first-free characterisation pins the key down: it is the only key with that description. */
  lemma FirstFreeUnique(root: string, existing: set<string>, m1: nat, m2: nat)
    requires 1 <= m1 && 1 <= m2
    requires Candidate(root, m1) !in existing && Candidate(root, m2) !in existing
    requires forall k :: 1 <= k < m1 ==> Candidate(root, k) in existing
    requires forall k :: 1 <= k < m2 ==> Candidate(root, k) in existing
    ensures m1 == m2
  {
  }

  lemma RootStudy()
    ensures Root("Study") == "study"
  {
    SlugStudy();
  }

  lemma MakeActivityKeyStudyFree()
    ensures MakeActivityKey("Study", {}) == "study"
  {
    RootStudy();
    assert Candidate("study", 1) == "study";
  }

  lemma SecondCandidateStudy()
    ensures Candidate("study", 2) == "study_2"
  {
    assert NatToString(2) == "2";
  }

  lemma FirstFreeStudyTaken()
    ensures FirstFreeFrom("study", {"study"}, 1) == "study_2"
  {
    assert Candidate("study", 1) == "study";
    SecondCandidateStudy();
    assert FirstFreeFrom("study", {"study"}, 2) == "study_2";
  }

  lemma MakeActivityKeyStudyTaken()
    ensures MakeActivityKey("Study", {"study"}) == "study_2"
  {
    RootStudy();
    FirstFreeStudyTaken();
  }
}

=== FILE: bars.dfy ===
/**
 * The bars of the "Today's totals" cards (src/Stopwatch.jsx): each bar is
 * the activity's total as a percentage of the largest listed total, with a
 * floor of 1 ms under the divisor.
 */
module Bars {
  import opened Stopwatch

  function Max(a: int, b: int): int {
    if a < b then b else a
  }

  /** The `maxMs` memo: `Math.max(1, ...activities.map((a) => totals[a.key] || 0))`. */
  function MaxMs(activities: seq<Activity>, totals: map<string, int>): (m: int)
    ensures 1 <= m
    ensures forall a :: a in activities ==> Total(totals, a.key) <= m
    ensures m == 1 || exists a :: a in activities && Total(totals, a.key) == m
  {
    if |activities| == 0 then 1
    else
      var rest := MaxMs(activities[1..], totals);
      assert forall a :: a in activities[1..] ==> a in activities;
      Max(Total(totals, activities[0].key), rest)
  }

  /** A width `r` (in percent) that is exactly `ms` out of `maxMs`. */
  predicate Proportional(r: real, ms: int, maxMs: int) {
    r * (maxMs as real) == (ms as real) * 100.0
  }

  /** `Math.max(0, Math.min(100, (ms / maxMs) * 100))`, in exact arithmetic. */
  function Pct(ms: int, maxMs: int): (r: real)
    requires 1 <= maxMs
    ensures 0.0 <= r <= 100.0
    ensures 0 <= ms <= maxMs ==> Proportional(r, ms, maxMs)
    ensures maxMs <= ms ==> r == 100.0
    ensures ms <= 0 ==> r == 0.0
  {
    var x := (ms as real / maxMs as real) * 100.0;
    if x < 0.0 then 0.0 else if 100.0 < x then 100.0 else x
  }

  /** The width of the bar of the activity with key `key`. */
  function BarPct(activities: seq<Activity>, totals: map<string, int>, key: string): (r: real)
    ensures 0.0 <= r <= 100.0
  {
    Pct(Total(totals, key), MaxMs(activities, totals))
  }

  /** Every listed bar is proportional to its total. */
  lemma BarProportional(activities: seq<Activity>, totals: map<string, int>, a: Activity)
    requires a in activities
    requires NonNegative(totals)
    ensures Proportional(BarPct(activities, totals, a.key), Total(totals, a.key), MaxMs(activities, totals))
  {
    ListedWithinMax(activities, totals, a);
  }

  lemma ListedWithinMax(activities: seq<Activity>, totals: map<string, int>, a: Activity)
    requires a in activities
    requires NonNegative(totals)
    ensures 0 <= Total(totals, a.key) <= MaxMs(activities, totals)
  {
  }

  /** The activity holding a positive maximum gets a full bar. */
  lemma BarFullAtMax(activities: seq<Activity>, totals: map<string, int>, a: Activity)
    requires a in activities
    requires 0 < Total(totals, a.key)
    requires forall b :: b in activities ==> Total(totals, b.key) <= Total(totals, a.key)
    ensures BarPct(activities, totals, a.key) == 100.0
  {
    var m := MaxMs(activities, totals);
    var ms := Total(totals, a.key);
    if m != 1 {
      var b :| b in activities && Total(totals, b.key) == m;
    }
    assert m <= ms;
    assert BarPct(activities, totals, a.key) == Pct(ms, m);
  }

  lemma WorkGymExample()
    ensures var acts := [Activity("work", "Work", "w"), Activity("gym", "Gym", "g")];
      var totals := map["work" := 1000, "gym" := 4000];
      MaxMs(acts, totals) == 4000 && BarPct(acts, totals, "work") == 25.0 && BarPct(acts, totals, "gym") == 100.0
  {
    var acts := [Activity("work", "Work", "w"), Activity("gym", "Gym", "g")];
    var totals := map["work" := 1000, "gym" := 4000];
    assert acts[1..] == [Activity("gym", "Gym", "g")];
    assert MaxMs(acts[1..], totals) == 4000;
  }
}

=== FILE: countdown.dfy ===
/**
 * The countdown gate of src/App.jsx: tapping an app tile opens an overlay
 * that counts ten seconds down before "Continue" is enabled.
 *
 * React state and the interval handle become one immutable record. The
 * interval is reduced to a flag saying whether a timer is armed, and each
 * firing of the interval is one call of Tick.
 */
module Countdown {
  import opened JsNull

  /** The wait openWithFriction starts from. */
  const WaitSeconds: int := 10

  /** `open`, `secondsLeft`, `targetUrl`, and whether `timerRef` holds a live interval. */
  datatype Gate = Gate(open: bool, secondsLeft: int, targetUrl: string, timerArmed: bool)

  /** The state on mount: closed, ten seconds, no target, no timer. */
  const Closed := Gate(false, WaitSeconds, "", false)

  /**
   * Well-formed gates: the counter stays within 0..10, a timer only runs
   * while the overlay is open, and an open overlay has a timer exactly
   * while there is time left to count.
   */
  predicate Inv(g: Gate) {
    && 0 <= g.secondsLeft <= WaitSeconds
    && (g.timerArmed ==> g.open)
    && (g.open ==> (g.timerArmed <==> 0 < g.secondsLeft))
  }

  /**
   * The `setSecondsLeft` updater: one second off, and 0 (with the interval
   * cleared) once the counter is at 1 or below.
   */
  function Step(s: int): (r: int)
    ensures 0 <= r
    ensures 0 <= s ==> r <= s
    ensures r == 0 <==> s <= 1
    ensures 1 < s ==> r == s - 1
  {
    if s <= 1 then 0 else s - 1
  }

  /**
   * openWithFriction(url), together with the effect on `[open]`: the target
   * and the counter are set, and the effect arms a fresh interval only when
   * `open` changes from false to true.
   */
  function OpenWithFriction(g: Gate, url: string): (r: Gate)
    ensures r.open && r.secondsLeft == WaitSeconds && r.targetUrl == url
    ensures !g.open ==> r.timerArmed
    ensures g.open ==> r.timerArmed == g.timerArmed
  {
    Gate(true, WaitSeconds, url, if !g.open then true else g.timerArmed)
  }

  /** cancel(): the interval is cleared and the overlay closes; the counter is left as it was. */
  function Cancel(g: Gate): (r: Gate)
    ensures !r.open && !r.timerArmed
    ensures r.secondsLeft == g.secondsLeft && r.targetUrl == g.targetUrl
  {
    g.(open := false, timerArmed := false)
  }

  /** One firing of the interval; with no timer armed nothing happens. */
  function Tick(g: Gate): (r: Gate)
    ensures !g.timerArmed ==> r == g
    ensures g.timerArmed ==> r.secondsLeft == Step(g.secondsLeft) && (r.timerArmed <==> 1 < g.secondsLeft)
    ensures r.open == g.open && r.targetUrl == g.targetUrl
  {
    if !g.timerArmed then g
    else if g.secondsLeft <= 1 then g.(secondsLeft := 0, timerArmed := false)
    else g.(secondsLeft := g.secondsLeft - 1)
  }

  /**
   * `canContinue`: the wait is over exactly when the counter reads 0. On a
   * well-formed open overlay that is exactly when no timer is left running.
   */
  predicate CanContinue(g: Gate): (r: bool)
    ensures r ==> g.secondsLeft <= 0
    ensures Inv(g) && g.open ==> (r <==> !g.timerArmed)
  {
    g.secondsLeft == 0
  }

  /**
   * The "Continue" button: it exists only on the open overlay and is
   * disabled until CanContinue; otherwise it runs `go`, which sends the
   * browser to the target. The navigation is returned.
   */
  function Continue(g: Gate): (r: Nullable<string>)
    ensures r.Present? <==> g.open && g.secondsLeft == 0
    ensures r.Present? ==> r.value == g.targetUrl
  {
    if g.open && CanContinue(g) then Present(g.targetUrl) else Null
  }

  /** A closed overlay has no Continue button, so it never navigates. */
  lemma ClosedGateCannotContinue(g: Gate)
    ensures Continue(Cancel(g)) == Null
  {
  }

  /** `k` firings of the interval in a row. */
  function TickN(g: Gate, k: nat): Gate
    decreases k
  {
    if k == 0 then g else TickN(Tick(g), k - 1)
  }

  function Max0(x: int): int {
    if x < 0 then 0 else x
  }

  lemma ClosedInv()
    ensures Inv(Closed) && !CanContinue(Closed)
  {
  }

  /** Opening a closed overlay gives a well-formed gate. */
  lemma OpenPreservesInv(g: Gate, url: string)
    requires Inv(g) && !g.open
    ensures Inv(OpenWithFriction(g, url))
    ensures !CanContinue(OpenWithFriction(g, url))
  {
  }

  lemma CancelPreservesInv(g: Gate)
    requires Inv(g)
    ensures Inv(Cancel(g))
  {
  }

  /** A tick keeps the gate well formed, never raises the counter, and never takes it below 0. */
  lemma TickPreservesInv(g: Gate)
    requires Inv(g)
    ensures Inv(Tick(g))
    ensures 0 <= Tick(g).secondsLeft <= g.secondsLeft
  {
  }

  /** Over any number of ticks the counter goes down by one per tick and stops at 0. */
  lemma {:induction false} TickNCounts(g: Gate, k: nat)
    requires Inv(g) && g.open
    ensures Inv(TickN(g, k)) && TickN(g, k).open && TickN(g, k).targetUrl == g.targetUrl
    ensures TickN(g, k).secondsLeft == Max0(g.secondsLeft - k)
    decreases k
  {
    if k != 0 {
      TickPreservesInv(g);
      TickNCounts(Tick(g), k - 1);
    }
  }

  /**
   * From a freshly opened overlay, "Continue" is enabled after exactly ten
   * ticks and not before, and the timer is armed exactly until then.
   */
  lemma TenTicksToContinue(g: Gate, url: string, k: nat)
    requires Inv(g) && !g.open
    ensures var t := TickN(OpenWithFriction(g, url), k);
      && t.secondsLeft == Max0(WaitSeconds - k)
      && (CanContinue(t) <==> WaitSeconds <= k)
      && (t.timerArmed <==> k < WaitSeconds)
      && (Continue(t) == if WaitSeconds <= k then Present(url) else Null)
  {
    OpenPreservesInv(g, url);
    TickNCounts(OpenWithFriction(g, url), k);
  }

  /** Cancelling and reopening starts the wait again from ten seconds, with a fresh timer. */
  lemma ReopenRestarts(g: Gate, url: string)
    requires Inv(g)
    ensures var r := OpenWithFriction(Cancel(g), url);
      Inv(r) && r.secondsLeft == WaitSeconds && r.timerArmed && !CanContinue(r)
  {
  }

  /**
   * The app tiles stay focusable under the overlay, and the tile just
   * clicked keeps the focus, so Enter or Space calls openWithFriction again
   * on an open overlay. Once the wait is over that resets the counter to 10
   * without arming a timer (the effect only reruns when `open` changes), and
   * the gate never counts down again.
   */
  lemma ReopenWhileOpenStalls(url: string, k: nat)
    ensures var done := Gate(true, 0, url, false);
      && Inv(done)
      && TickN(OpenWithFriction(done, url), k).secondsLeft == WaitSeconds
      && Continue(TickN(OpenWithFriction(done, url), k)) == Null
      && !Inv(OpenWithFriction(done, url))
  {
    var r := OpenWithFriction(Gate(true, 0, url, false), url);
    StalledGateIsFrozen(r, k);
  }

  /** openWithFriction with the wait restarted every time: a fresh timer whether or not the overlay was open. */
  function OpenWithFrictionRearmed(g: Gate, url: string): (r: Gate)
    ensures r.open && r.secondsLeft == WaitSeconds && r.targetUrl == url && r.timerArmed
  {
    Gate(true, WaitSeconds, url, true)
  }

  /**
   * With the timer re-armed, every open, including one on an overlay that
   * is already open, gives a well-formed gate on which "Continue" is
   * enabled after exactly ten ticks.
   */
  lemma RearmedOpenCountsDown(g: Gate, url: string, k: nat)
    requires Inv(g)
    ensures Inv(OpenWithFrictionRearmed(g, url))
    ensures var t := TickN(OpenWithFrictionRearmed(g, url), k);
      && t.secondsLeft == Max0(WaitSeconds - k)
      && (Continue(t) == if WaitSeconds <= k then Present(url) else Null)
  {
    TickNCounts(OpenWithFrictionRearmed(g, url), k);
  }

  /**
   * A gate with no timer armed, such as any cancelled gate or one whose
   * wait is over, is left alone by any number of ticks.
   */
  lemma {:induction false} StalledGateIsFrozen(g: Gate, k: nat)
    requires !g.timerArmed
    ensures TickN(g, k) == g
    decreases k
  {
    if k != 0 {
      StalledGateIsFrozen(Tick(g), k - 1);
    }
  }
}

=== FILE: decimal.dfy ===
/**
 * Decimal rendering of natural numbers, as JavaScript's `String(n)` and
 * `padStart(2, "0")` produce it, and the parser that reads it back.
 */
module Decimal {

  predicate IsDigit(c: char) {
    '0' <= c <= '9'
  }

  predicate AllDigits(s: string) {
    forall i :: 0 <= i < |s| ==> IsDigit(s[i])
  }

  function DigitChar(d: nat): (c: char)
    requires d < 10
    ensures IsDigit(c)
  {
    "0123456789"[d]
  }

  function DigitValue(c: char): (d: nat)
    ensures d < 10
  {
    if IsDigit(c) then (c as int - '0' as int) else 0
  }

  lemma DigitRoundTrip(d: nat)
    requires d < 10
    ensures DigitValue(DigitChar(d)) == d
  {
  }

  /** `String(n)`: the shortest decimal numeral of `n`. */
  function NatToString(n: nat): (s: string)
    ensures 1 <= |s|
    ensures AllDigits(s)
    ensures |s| == 1 <==> n < 10
    ensures 1 < |s| ==> s[0] != '0'
  {
    if n < 10 then [DigitChar(n)] else NatToString(n / 10) + [DigitChar(n % 10)]
  }

  /** Reads a numeral most significant digit first; leading zeros are harmless. */
  function ParseNat(s: string): nat
  {
    if |s| == 0 then 0 else 10 * ParseNat(s[..|s| - 1]) + DigitValue(s[|s| - 1])
  }

  lemma {:induction false} ParseNatToString(n: nat)
    ensures ParseNat(NatToString(n)) == n
  {
    var s := NatToString(n);
    if n < 10 {
      DigitRoundTrip(n);
    } else {
      assert s[..|s| - 1] == NatToString(n / 10);
      ParseNatToString(n / 10);
      DigitRoundTrip(n % 10);
    }
  }

  lemma NatToStringInjective(a: nat, b: nat)
    ensures NatToString(a) == NatToString(b) ==> a == b
  {
    ParseNatToString(a);
    ParseNatToString(b);
  }

  /** A zero in front of a numeral does not change the number it denotes. */
  lemma {:induction false} ParseNatLeadingZero(s: string)
    ensures ParseNat("0" + s) == ParseNat(s)
  {
    if |s| > 0 {
      assert ("0" + s)[..|"0" + s| - 1] == "0" + s[..|s| - 1];
      ParseNatLeadingZero(s[..|s| - 1]);
    }
  }

  /** `s.padStart(2, "0")`: zeros in front until the length is at least two. */
  function PadStart2(s: string): (r: string)
    ensures |r| == if |s| < 2 then 2 else |s|
    ensures r[|r| - |s|..] == s
    ensures forall i :: 0 <= i < |r| - |s| ==> r[i] == '0'
    ensures AllDigits(s) ==> AllDigits(r)
  {
    if |s| < 2 then seq(2 - |s|, _ => '0') + s else s
  }

  /** Two-digit padding of a numeral keeps the number it denotes. */
  lemma ParsePadded(n: nat)
    ensures ParseNat(PadStart2(NatToString(n))) == n
  {
    var s := NatToString(n);
    ParseNatToString(n);
    if |s| < 2 {
      assert PadStart2(s) == "0" + s;
      ParseNatLeadingZero(s);
    }
  }

  /** Every value below one hundred has at most two digits, so it pads to exactly two. */
  lemma TwoDigitsAtMost(n: nat)
    requires n < 100
    ensures |NatToString(n)| <= 2
  {
    if n >= 10 {
      assert NatToString(n) == NatToString(n / 10) + [DigitChar(n % 10)];
    }
  }
}

=== FILE: format.dfy ===
/**
 * The duration formats of src/Stopwatch.jsx: formatHMS for the live timer,
 * and the minutes branch of formatMinutes for the totals cards.
 */
module Format {
  import opened Decimal

  /** formatMinutes switches from minutes to hours at this many milliseconds. */
  const MsPerHour: nat := 3600000

  /** Hours, minutes and seconds of a duration, sub-second remainder dropped. */
  datatype Clock = Clock(hours: nat, minutes: nat, seconds: nat)

  /** The three fields formatHMS computes from `Math.floor(ms / 1000)`. */
  function Split(ms: nat): (c: Clock)
    ensures c.minutes < 60 && c.seconds < 60
    ensures c.hours * 3600 + c.minutes * 60 + c.seconds == ms / 1000
  {
    var t := ms / 1000;
    Clock(t / 3600, (t % 3600) / 60, t % 60)
  }

  /** The decomposition is unique: any fields with minutes and seconds below 60 that add up to `t` are Split's. */
  lemma SplitUnique(ms: nat, c: Clock)
    requires c.minutes < 60 && c.seconds < 60
    requires c.hours * 3600 + c.minutes * 60 + c.seconds == ms / 1000
    ensures c == Split(ms)
  {
    var t := ms / 1000;
    var d := Split(ms);
    assert c.minutes * 60 + c.seconds < 3600;
    assert d.minutes * 60 + d.seconds < 3600;
    assert c.hours == t / 3600;
    assert c.minutes * 60 + c.seconds == t % 3600;
    assert c.seconds == t % 60;
  }

  /** The shape ParseHMS accepts: at least eight characters, colons before the last two fields. */
  predicate Shaped(s: string) {
    8 <= |s| && s[|s| - 3] == ':' && s[|s| - 6] == ':'
  }

  /** A formatHMS display: the shape above, with every field made of decimal digits. */
  predicate Display(s: string) {
    Shaped(s) && AllDigits(s[..|s| - 6]) && AllDigits(s[|s| - 5..|s| - 3]) && AllDigits(s[|s| - 2..])
  }

  lemma Joined(h: string, m: string, sec: string)
    requires 2 <= |h| && |m| == 2 && |sec| == 2
    ensures var s := h + ":" + m + ":" + sec;
      && |s| == |h| + 6
      && Shaped(s)
      && s[..|s| - 6] == h && s[|s| - 5..|s| - 3] == m && s[|s| - 2..] == sec
  {
  }

  /** `${pad(h)}:${pad(m)}:${pad(s)}`. */
  function Render(c: Clock): (s: string)
    requires c.minutes < 60 && c.seconds < 60
    ensures Display(s)
  {
    PadFields(c);
    JoinedDisplay(Pad(c.hours), Pad(c.minutes), Pad(c.seconds));
    Pad(c.hours) + ":" + Pad(c.minutes) + ":" + Pad(c.seconds)
  }

  /** The padded fields: at least two hour digits, exactly two minute and two second digits. */
  lemma PadFields(c: Clock)
    requires c.minutes < 60 && c.seconds < 60
    ensures 2 <= |Pad(c.hours)| && |Pad(c.minutes)| == 2 && |Pad(c.seconds)| == 2
    ensures AllDigits(Pad(c.hours)) && AllDigits(Pad(c.minutes)) && AllDigits(Pad(c.seconds))
  {
    TwoDigitsAtMost(c.minutes);
    TwoDigitsAtMost(c.seconds);
  }

  lemma JoinedDisplay(h: string, m: string, sec: string)
    requires 2 <= |h| && |m| == 2 && |sec| == 2
    requires AllDigits(h) && AllDigits(m) && AllDigits(sec)
    ensures Display(h + ":" + m + ":" + sec)
  {
    Joined(h, m, sec);
  }

  /**
   * formatHMS: `HH:MM:SS`, every field zero-padded to at least two digits.
   * Minutes and seconds read below 60, and the hours carry no zero beyond
   * the padding.
   */
  function FormatHMS(ms: nat): (s: string)
    ensures Display(s)
    ensures Normalised(s)
  {
    RenderFields(Split(ms));
    Render(Split(ms))
  }

  /** A display in normal form: minutes and seconds below 60, and no padding zero on hours of three digits or more. */
  predicate Normalised(s: string)
    requires Shaped(s)
  {
    && ParseNat(s[|s| - 5..|s| - 3]) < 60
    && ParseNat(s[|s| - 2..]) < 60
    && (|s| == 8 || s[0] != '0')
  }

  /** Every rendered clock is in normal form. */
  lemma RenderFields(c: Clock)
    requires c.minutes < 60 && c.seconds < 60
    ensures Display(Render(c)) && Normalised(Render(c))
  {
    var h, m, sec := Pad(c.hours), Pad(c.minutes), Pad(c.seconds);
    RenderPieces(c);
    Joined(h, m, sec);
    ParsePadded(c.minutes);
    ParsePadded(c.seconds);
    var s := Render(c);
    assert s[|s| - 5..|s| - 3] == m && s[|s| - 2..] == sec;
    assert |s| == |h| + 6 && s[..|s| - 6] == h;
    if |h| != 2 {
      assert h == NatToString(c.hours);
      assert s[0] == h[0];
    }
  }

  /** What reading a display back gives: a number of seconds, or nothing for text of the wrong shape. */
  datatype Reading = Unreadable | Reads(seconds: nat)

  /** Reads `H…H:MM:SS` back into a number of seconds; text that is not a display reads as nothing. */
  function ParseHMS(s: string): Reading {
    var n := |s|;
    if !Display(s) then Unreadable else Reads(Seconds(s[..n - 6], s[n - 5..n - 3], s[n - 2..]))
  }

  function Seconds(h: string, m: string, sec: string): nat {
    3600 * ParseNat(h) + 60 * ParseNat(m) + ParseNat(sec)
  }

  lemma ParseJoined(h: string, m: string, sec: string)
    requires 2 <= |h| && |m| == 2 && |sec| == 2
    requires AllDigits(h) && AllDigits(m) && AllDigits(sec)
    ensures ParseHMS(h + ":" + m + ":" + sec) == Reads(Seconds(h, m, sec))
  {
    Joined(h, m, sec);
  }

  function Pad(n: nat): string {
    PadStart2(NatToString(n))
  }

  lemma SecondsOfPadded(c: Clock)
    ensures Seconds(Pad(c.hours), Pad(c.minutes), Pad(c.seconds)) == c.hours * 3600 + c.minutes * 60 + c.seconds
  {
    ParsePadded(c.hours);
    ParsePadded(c.minutes);
    ParsePadded(c.seconds);
  }

  lemma RenderPieces(c: Clock)
    requires c.minutes < 60 && c.seconds < 60
    ensures Render(c) == Pad(c.hours) + ":" + Pad(c.minutes) + ":" + Pad(c.seconds)
    ensures 2 <= |Pad(c.hours)| && |Pad(c.minutes)| == 2 && |Pad(c.seconds)| == 2
    ensures AllDigits(Pad(c.hours)) && AllDigits(Pad(c.minutes)) && AllDigits(Pad(c.seconds))
  {
    PadFields(c);
  }

  lemma RenderParses(c: Clock)
    requires c.minutes < 60 && c.seconds < 60
    ensures ParseHMS(Render(c)) == Reads(Seconds(Pad(c.hours), Pad(c.minutes), Pad(c.seconds)))
  {
    RenderPieces(c);
    ParseJoined(Pad(c.hours), Pad(c.minutes), Pad(c.seconds));
  }

  lemma RenderRoundTrip(c: Clock)
    requires c.minutes < 60 && c.seconds < 60
    ensures ParseHMS(Render(c)) == Reads(c.hours * 3600 + c.minutes * 60 + c.seconds)
  {
    var n := Seconds(Pad(c.hours), Pad(c.minutes), Pad(c.seconds));
    RenderParses(c);
    assert ParseHMS(Render(c)) == Reads(n);
    SecondsOfPadded(c);
    assert n == c.hours * 3600 + c.minutes * 60 + c.seconds;
  }

  /** The display loses exactly the sub-second remainder: parsing it back gives the whole seconds. */
  lemma FormatHMSRoundTrip(ms: nat)
    ensures ParseHMS(FormatHMS(ms)) == Reads(ms / 1000)
  {
    assert FormatHMS(ms) == Render(Split(ms));
    RenderRoundTrip(Split(ms));
  }

  lemma FormatHMSNinetySeconds()
    ensures FormatHMS(90000) == "00:01:30"
  {
    assert Split(90000) == Clock(0, 1, 30);
    assert NatToString(30) == "30" by {
      assert NatToString(3) == "3";
    }
    assert PadStart2("0") == "00";
    assert PadStart2("1") == "01";
  }

  /**
   * `Math.round(ms / 60000)` below one hour: the nearest whole minute, a
   * half minute rounded up.
   */
  function RoundedMinutes(ms: nat): (m: nat)
    requires ms < MsPerHour
    ensures m * 60000 <= ms + 30000 < (m + 1) * 60000
    ensures m <= 60
  {
    (ms + 30000) / 60000
  }

  /** The minutes branch of formatMinutes: `${Math.round(mins)}m`. */
  function FormatMinutes(ms: nat): (s: string)
    requires ms < MsPerHour
    ensures 2 <= |s| && s[|s| - 1] == 'm'
    ensures ParseNat(s[..|s| - 1]) == RoundedMinutes(ms)
    ensures AllDigits(s[..|s| - 1]) && (|s| == 2 || s[0] != '0')
  {
    var digits := NatToString(RoundedMinutes(ms));
    ParseNatToString(RoundedMinutes(ms));
    assert (digits + "m")[..|digits|] == digits;
    digits + "m"
  }

  /** Exactly half a minute rounds up. */
  lemma FormatMinutesHalfUp()
    ensures FormatMinutes(30000) == "1m"
  {
    assert RoundedMinutes(30000) == 1;
    assert NatToString(1) == "1";
  }

  lemma FormatMinutesJustBelowHalf()
    ensures FormatMinutes(29999) == "0m"
  {
    assert RoundedMinutes(29999) == 0;
    assert NatToString(0) == "0";
  }
}

=== FILE: nullable.dfy ===
/**
 * JavaScript's `null` next to a present value: the `selected` key, the
 * `startRef` instant and the "Continue" navigation may each be absent.
 */
module JsNull {

  datatype Nullable<T> = Null | Present(value: T)
}

=== FILE: slug.dfy ===
/**
 * The slug an activity key is built from (src/Stopwatch.jsx, makeActivityKey):
 * trim, lower-case, every whitespace run becomes `_`, and every character
 * outside `[a-z0-9_]` is dropped.
 */
module ActivitySlug {
  import opened Text

  predicate IsKeyChar(c: char) {
    ('a' <= c <= 'z') || ('0' <= c <= '9') || c == '_'
  }

  predicate AllKeyChars(s: string) {
    forall i :: 0 <= i < |s| ==> IsKeyChar(s[i])
  }

  /**
   * `toLowerCase` of one character, exact on every character whose lower
   * case contains a key character: ASCII capitals, U+0130 (capital I with
   * dot, lower-cased to `i` and a combining dot) and U+212A (Kelvin sign,
   * lower-cased to `k`). Every other character is kept as it is; its real
   * lower case holds no key character either, so the later filter removes
   * it all the same.
   */
  function LowerChar(c: char): (r: string)
    ensures 1 <= |r| <= 2
    ensures IsKeyChar(c) ==> r == [c]
    ensures 'A' <= c <= 'Z' ==> |r| == 1 && 'a' <= r[0] <= 'z' && r[0] as int == c as int + 32
  {
    if 'A' <= c <= 'Z' then [(c as int + 32) as char]
    else if c == '\U{130}' then ['i', '\U{307}']
    else if c == '\U{212A}' then ['k']
    else [c]
  }

  /** `toLowerCase` of a string, character by character. */
  function Lower(s: string): (r: string)
    ensures |s| <= |r| <= 2 * |s|
    ensures |s| == 1 ==> r == LowerChar(s[0])
  {
    if |s| == 0 then [] else LowerChar(s[0]) + Lower(s[1..])
  }

  /** Lowercasing works character by character, so it distributes over concatenation. */
  lemma {:induction false} LowerAppend(a: string, b: string)
    ensures Lower(a + b) == Lower(a) + Lower(b)
  {
    if |a| > 0 {
      assert (a + b)[0] == a[0];
      assert (a + b)[1..] == a[1..] + b;
      LowerAppend(a[1..], b);
    } else {
      assert a + b == b;
    }
  }

  /** `replace(/\s+/g, "_")`: each maximal whitespace run becomes one `_`. */
  function CollapseSpaces(s: string): (r: string)
    ensures NoSpace(r)
    ensures |r| <= |s|
    decreases |s|
  {
    if |s| == 0 then []
    else if IsSpace(s[0]) then "_" + CollapseSpaces(TrimStart(s[1..]))
    else [s[0]] + CollapseSpaces(s[1..])
  }

  /** `replace(/[^a-z0-9_]/g, "")`: keeps the key characters, in order. */
  function KeepKeyChars(s: string): (r: string)
    ensures AllKeyChars(r)
    ensures |r| <= |s|
    ensures forall i :: 0 <= i < |s| && IsKeyChar(s[i]) ==> s[i] in r
    ensures |s| == 1 ==> r == (if IsKeyChar(s[0]) then s else [])
  {
    if |s| == 0 then []
    else if IsKeyChar(s[0]) then [s[0]] + KeepKeyChars(s[1..])
    else KeepKeyChars(s[1..])
  }

  /** The filter works character by character: filtering a concatenation filters each part. */
  lemma {:induction false} KeepKeyCharsAppend(a: string, b: string)
    ensures KeepKeyChars(a + b) == KeepKeyChars(a) + KeepKeyChars(b)
  {
    if |a| > 0 {
      assert (a + b)[0] == a[0];
      assert (a + b)[1..] == a[1..] + b;
      KeepKeyCharsAppend(a[1..], b);
    } else {
      assert a + b == b;
    }
  }

  /** The `base` of makeActivityKey, before the empty-slug fallback. */
  function Slug(text: string): (r: string)
    ensures AllKeyChars(r)
  {
    KeepKeyChars(CollapseSpaces(Lower(Trim(text))))
  }

  lemma KeyCharIsNotSpace(c: char)
    requires IsKeyChar(c)
    ensures !IsSpace(c)
  {
  }

  lemma {:induction false} LowerKeepsKeyChars(s: string)
    requires AllKeyChars(s)
    ensures Lower(s) == s
  {
    if |s| > 0 {
      LowerKeepsKeyChars(s[1..]);
    }
  }

  lemma {:induction false} CollapseKeepsSpaceless(s: string)
    requires NoSpace(s)
    ensures CollapseSpaces(s) == s
  {
    if |s| > 0 {
      CollapseKeepsSpaceless(s[1..]);
    }
  }

  lemma {:induction false} KeepKeyCharsKeepsKeyChars(s: string)
    requires AllKeyChars(s)
    ensures KeepKeyChars(s) == s
  {
    if |s| > 0 {
      KeepKeyCharsKeepsKeyChars(s[1..]);
    }
  }

  /** A string of key characters is its own slug. */
  lemma SlugOfKeyChars(s: string)
    requires AllKeyChars(s)
    ensures Slug(s) == s
  {
    if |s| > 0 {
      KeyCharIsNotSpace(s[0]);
      KeyCharIsNotSpace(s[|s| - 1]);
    }
    TrimNoOp(s);
    LowerKeepsKeyChars(s);
    assert NoSpace(s) by {
      forall i | 0 <= i < |s| ensures !IsSpace(s[i]) {
        KeyCharIsNotSpace(s[i]);
      }
    }
    CollapseKeepsSpaceless(s);
    KeepKeyCharsKeepsKeyChars(s);
  }

  /** Slugging a slug changes nothing. */
  lemma SlugIdempotent(text: string)
    ensures Slug(Slug(text)) == Slug(text)
  {
    SlugOfKeyChars(Slug(text));
  }

  /** A label with no surrounding whitespace whose lower case is made of key characters slugs to that lower case. */
  lemma SlugOfPlainLabel(text: string)
    requires Trim(text) == text
    requires AllKeyChars(Lower(text))
    ensures Slug(text) == Lower(text)
  {
    var l := Lower(text);
    assert NoSpace(l) by {
      forall i | 0 <= i < |l| ensures !IsSpace(l[i]) {
        KeyCharIsNotSpace(l[i]);
      }
    }
    CollapseKeepsSpaceless(l);
    KeepKeyCharsKeepsKeyChars(l);
  }

  lemma LowerStudy()
    ensures Lower("Study") == "study"
  {
    assert "Study"[1..] == "tudy";
    LowerKeepsKeyChars("tudy");
  }

  lemma SlugStudy()
    ensures Slug("Study") == "study"
  {
    TrimNoOp("Study");
    LowerStudy();
    SlugOfPlainLabel("Study");
  }

  /** Text without whitespace passes through the run replacement unchanged. */
  lemma {:induction false} CollapseAfterPlain(a: string, s: string)
    requires NoSpace(a)
    ensures CollapseSpaces(a + s) == a + CollapseSpaces(s)
  {
    if |a| > 0 {
      assert (a + s)[0] == a[0] && !IsSpace(a[0]);
      assert (a + s)[1..] == a[1..] + s;
      CollapseAfterPlain(a[1..], s);
      assert a == [a[0]] + a[1..];
    } else {
      assert a + s == s;
    }
  }

  /** A whole whitespace run, whatever its length, becomes a single `_`. */
  lemma CollapseRun(w: string, b: string)
    requires |w| > 0 && forall i :: 0 <= i < |w| ==> IsSpace(w[i])
    requires |b| > 0 ==> !IsSpace(b[0])
    ensures CollapseSpaces(w + b) == "_" + CollapseSpaces(b)
  {
    var t := (w + b)[1..];
    assert t == w[1..] + b;
    SkipSpacesOverRun(w[1..], b);
    assert TrimStart(t) == b;
  }
}

=== FILE: stopwatch.dfy ===
/**
 * The activity time-tracking engine of src/Stopwatch.jsx: the activity
 * registry, today's totals and the stopwatch session, with every event
 * handler as one atomic transition of an immutable state. The clock
 * (`Date.now()`) is the `now` parameter of the handlers that read it.
 */
module Stopwatch {
  import opened JsNull
  import opened Text
  import opened ActivityKey

  /** One tile: `{ key, label, emoji }`. The label is the field `name`, because `label` is a Dafny keyword. */
  datatype Activity = Activity(key: string, name: string, emoji: string)

  /**
   * The timer state: `selected`, `running`, `startRef.current` and
   * `elapsedMs`. Times are milliseconds of the clock; they are integers
   * because nothing in the source stops the clock from stepping back.
   */
  datatype Session = Session(selected: Nullable<string>, running: bool, startRef: Nullable<int>, elapsedMs: int)

  /** Everything the handlers read and write. Totals map keys to milliseconds. */
  datatype State = State(activities: seq<Activity>, totals: map<string, int>, session: Session)

  const Idle: Session := Session(Null, false, Null, 0)

  /** The component as mounted: loaded activities and totals, nothing selected. */
  function Mounted(activities: seq<Activity>, totals: map<string, int>): (t: State)
    ensures t.activities == activities && t.totals == totals
    ensures t.session.selected == Null && !t.session.running && t.session.startRef == Null && t.session.elapsedMs == 0
  {
    State(activities, totals, Idle)
  }

  /** `new Set(activities.map((a) => a.key))`. */
  function KeySet(activities: seq<Activity>): (r: set<string>)
    ensures forall i :: 0 <= i < |activities| ==> activities[i].key in r
    ensures forall k :: k in r ==> exists i :: 0 <= i < |activities| && activities[i].key == k
  {
    set a | a in activities :: a.key
  }

  predicate UniqueKeys(activities: seq<Activity>) {
    forall i, j :: 0 <= i < j < |activities| ==> activities[i].key != activities[j].key
  }

  /** `totals[key] || 0`: an absent key reads as zero. */
  function Total(totals: map<string, int>, key: string): (r: int)
    ensures key in totals ==> r == totals[key]
    ensures key !in totals ==> r == 0
    ensures NonNegative(totals) ==> 0 <= r
  {
    if key in totals then totals[key] else 0
  }

  predicate NonNegative(totals: map<string, int>) {
    forall k :: k in totals ==> totals[k] >= 0
  }

  /** JavaScript truthiness of `selected`: neither `null` nor the empty string. */
  predicate Truthy(selected: Nullable<string>) {
    selected.Present? && selected.value != ""
  }

  /** The property name `next[selected]` writes: `null` coerces to "null". */
  function PropertyKey(selected: Nullable<string>): string {
    match selected
    case Null => "null"
    case Present(key) => key
  }

  /** `Date.now() - startRef.current` reads a missing start as 0. */
  function StartOrZero(startRef: Nullable<int>): int {
    match startRef
    case Null => 0
    case Present(t) => t
  }

  /**
   * What the handlers keep true: keys are unique, totals are non-negative,
   * a running session has a (truthy) selection and a start instant, and a
   * selection names a listed activity.
   */
  predicate Inv(t: State) {
    && UniqueKeys(t.activities)
    && NonNegative(t.totals)
    && (t.session.running ==> Truthy(t.session.selected) && t.session.startRef.Present?)
    && (t.session.selected.Present? ==> t.session.selected.value in KeySet(t.activities))
  }

  // ---------------------------------------------------------------------
  // Activity registry
  // ---------------------------------------------------------------------

  /** `prev.filter((a) => a.key !== deleteKey)`. */
  function RemoveKey(activities: seq<Activity>, key: string): (r: seq<Activity>)
    ensures |r| <= |activities|
    ensures forall a :: a in r <==> a in activities && a.key != key
  {
    if |activities| == 0 then []
    else if activities[0].key == key then RemoveKey(activities[1..], key)
    else [activities[0]] + RemoveKey(activities[1..], key)
  }

  /** The filter commutes with concatenation, so the survivors keep their relative order. */
  lemma {:induction false} RemoveKeyAppend(xs: seq<Activity>, ys: seq<Activity>, key: string)
    ensures RemoveKey(xs + ys, key) == RemoveKey(xs, key) + RemoveKey(ys, key)
  {
    if |xs| == 0 {
      assert xs + ys == ys;
    } else {
      assert (xs + ys)[0] == xs[0];
      assert (xs + ys)[1..] == xs[1..] + ys;
      RemoveKeyAppend(xs[1..], ys, key);
    }
  }

  lemma {:induction false} RemoveKeyAbsent(activities: seq<Activity>, key: string)
    requires key !in KeySet(activities)
    ensures RemoveKey(activities, key) == activities
  {
    if |activities| > 0 {
      assert activities[0] in activities;
      assert KeySet(activities[1..]) <= KeySet(activities) by {
        forall a | a in activities[1..] ensures a in activities { }
      }
      RemoveKeyAbsent(activities[1..], key);
    }
  }

  lemma UniqueKeysTail(activities: seq<Activity>)
    requires |activities| > 0 && UniqueKeys(activities)
    ensures UniqueKeys(activities[1..])
    ensures activities[0].key !in KeySet(activities[1..])
  {
    forall j | 0 <= j < |activities[1..]|
      ensures activities[1..][j].key != activities[0].key
    {
      assert activities[1..][j] == activities[j + 1];
    }
  }

  lemma UniqueKeysCons(a: Activity, rest: seq<Activity>)
    requires UniqueKeys(rest) && a.key !in KeySet(rest)
    ensures UniqueKeys([a] + rest)
  {
    var s := [a] + rest;
    forall i, j | 0 <= i < j < |s|
      ensures s[i].key != s[j].key
    {
      assert s[j] == rest[j - 1];
      if i > 0 {
        assert s[i] == rest[i - 1];
      } else {
        assert rest[j - 1] in rest;
      }
    }
  }

  /** Deleting keeps the keys unique, and with unique keys it removes exactly one entry when the key is listed. */
  lemma {:induction false} RemoveKeyUnique(activities: seq<Activity>, key: string)
    requires UniqueKeys(activities)
    ensures UniqueKeys(RemoveKey(activities, key))
    ensures |RemoveKey(activities, key)| == |activities| - (if key in KeySet(activities) then 1 else 0)
  {
    if |activities| > 0 {
      var rest := activities[1..];
      UniqueKeysTail(activities);
      RemoveKeyUnique(rest, key);
      assert KeySet(activities) == {activities[0].key} + KeySet(rest) by {
        assert activities == [activities[0]] + rest;
      }
      if activities[0].key == key {
        RemoveKeyAbsent(rest, key);
      } else {
        assert KeySet(RemoveKey(rest, key)) <= KeySet(rest);
        UniqueKeysCons(activities[0], RemoveKey(rest, key));
      }
    }
  }

  /** Appending an entry whose key is new keeps the keys unique. */
  lemma UniqueKeysSnoc(activities: seq<Activity>, a: Activity)
    requires UniqueKeys(activities) && a.key !in KeySet(activities)
    ensures UniqueKeys(activities + [a])
    ensures KeySet(activities + [a]) == KeySet(activities) + {a.key}
  {
    var s := activities + [a];
    forall i, j | 0 <= i < j < |s|
      ensures s[i].key != s[j].key
    {
      if j == |activities| {
        assert s[i] == activities[i] && activities[i] in activities;
      }
    }
  }

  /**
   * addActivity: with a trimmed label or emoji that is empty nothing
   * changes; otherwise exactly one entry, with a fresh key from
   * makeActivityKey, is appended, the earlier entries stay as they were,
   * and the new key becomes the selection. The handler itself does not
   * look at `running`.
   */
  function AddActivity(t: State, newLabel: string, newEmoji: string): (r: State)
    ensures Trim(newLabel) == [] || Trim(newEmoji) == [] ==> r == t
    ensures Trim(newLabel) != [] && Trim(newEmoji) != [] ==>
      && |r.activities| == |t.activities| + 1
      && r.activities[..|t.activities|] == t.activities
      && r.activities[|t.activities|].key == MakeActivityKey(Trim(newLabel), KeySet(t.activities))
      && r.activities[|t.activities|].key !in KeySet(t.activities)
      && r.activities[|t.activities|].name == Trim(newLabel)
      && r.activities[|t.activities|].emoji == Trim(newEmoji)
      && r.session == t.session.(selected := Present(r.activities[|t.activities|].key))
      && r.totals == t.totals
    ensures UniqueKeys(t.activities) ==> UniqueKeys(r.activities)
  {
    var name := Trim(newLabel);
    var emoji := Trim(newEmoji);
    if name == [] || emoji == [] then t
    else
      var key := MakeActivityKey(name, KeySet(t.activities));
      var a := Activity(key, name, emoji);
      assert (UniqueKeys(t.activities) ==> UniqueKeys(t.activities + [a])) by {
        if UniqueKeys(t.activities) {
          UniqueKeysSnoc(t.activities, a);
        }
      }
      assert (t.activities + [a])[..|t.activities|] == t.activities;
      t.(activities := t.activities + [a], session := t.session.(selected := Present(key)))
  }

  /**
   * deleteActivity: an empty `deleteKey` is a no-op; otherwise the list
   * loses the entries with that key, today's totals lose that key and
   * nothing else, and the selection is cleared only when it was that key.
   * The handler itself does not look at `running`.
   */
  function DeleteActivity(t: State, deleteKey: string): (r: State)
    ensures deleteKey == "" ==> r == t
    ensures deleteKey != "" ==>
      && r.activities == RemoveKey(t.activities, deleteKey)
      && r.totals.Keys == t.totals.Keys - {deleteKey}
      && (forall k :: k in r.totals ==> r.totals[k] == t.totals[k])
      && r.session.selected == (if t.session.selected == Present(deleteKey) then Null else t.session.selected)
      && r.session.running == t.session.running
      && r.session.startRef == t.session.startRef
      && r.session.elapsedMs == t.session.elapsedMs
  {
    if deleteKey == "" then t
    else
      var session := if t.session.selected == Present(deleteKey) then t.session.(selected := Null) else t.session;
      State(RemoveKey(t.activities, deleteKey), t.totals - {deleteKey}, session)
  }

  // ---------------------------------------------------------------------
  // Session
  // ---------------------------------------------------------------------

  /** A click on an activity tile; tiles exist only for listed activities and are disabled while running. */
  function Select(t: State, key: string): (r: State)
    requires !t.session.running
    requires key in KeySet(t.activities)
    ensures r.session == t.session.(selected := Present(key)) && !r.session.running
    ensures r.activities == t.activities && r.totals == t.totals
  {
    t.(session := t.session.(selected := Present(key)))
  }

  /** start: only with a selection and while idle; records the start instant and zeroes the display. */
  function Start(t: State, now: int): (r: State)
    ensures !Truthy(t.session.selected) || t.session.running ==> r == t
    ensures Truthy(t.session.selected) && !t.session.running ==>
      && r.session.running
      && r.session.selected == t.session.selected
      && r.session.startRef == Present(now)
      && r.session.elapsedMs == 0
    ensures r.activities == t.activities && r.totals == t.totals
  {
    if !Truthy(t.session.selected) || t.session.running then t
    else t.(session := Session(t.session.selected, true, Present(now), 0))
  }

  /** The 250 ms display refresh: shows `now - startRef` while running and writes nothing else. */
  function Tick(t: State, now: int): (r: State)
    ensures t.session.running ==> r.session.elapsedMs == now - StartOrZero(t.session.startRef)
    ensures !t.session.running ==> r == t
    ensures r.activities == t.activities && r.totals == t.totals
    ensures r.session.selected == t.session.selected && r.session.running == t.session.running
    ensures r.session.startRef == t.session.startRef
  {
    if t.session.running then t.(session := t.session.(elapsedMs := now - StartOrZero(t.session.startRef)))
    else t
  }

  /**
   * stopAndSave: a no-op when idle; otherwise `now - startRef` is added to
   * the total of the selection as it was before the reset (an absent
   * total counts as 0), every other total is unchanged, and the session
   * ends idle with nothing selected.
   */
  function StopAndSave(t: State, now: int): (r: State)
    ensures !t.session.running ==> r == t
    ensures t.session.running ==>
      var key := PropertyKey(t.session.selected);
      && Total(r.totals, key) == Total(t.totals, key) + (now - StartOrZero(t.session.startRef))
      && r.totals.Keys == t.totals.Keys + {key}
      && (forall k :: k in t.totals && k != key ==> r.totals[k] == t.totals[k])
      && r.session == Idle
      && r.activities == t.activities
  {
    if !t.session.running then t
    else
      var key := PropertyKey(t.session.selected);
      var finalMs := now - StartOrZero(t.session.startRef);
      State(t.activities, t.totals[key := Total(t.totals, key) + finalMs], Idle)
  }

  /** resetToday: refused while running; otherwise every total reads as zero afterwards. */
  function ResetToday(t: State): (r: State)
    ensures t.session.running ==> r == t
    ensures !t.session.running ==> forall k :: Total(r.totals, k) == 0
    ensures !t.session.running ==> r.totals == map[]
    ensures r.activities == t.activities && r.session == t.session
  {
    if t.session.running then t else t.(totals := map[])
  }

  // ---------------------------------------------------------------------
  // The invariant across every handler
  // ---------------------------------------------------------------------

  lemma MountedInv(activities: seq<Activity>, totals: map<string, int>)
    requires UniqueKeys(activities) && NonNegative(totals)
    ensures Inv(Mounted(activities, totals))
  {
  }

  lemma AddActivityPreservesInv(t: State, newLabel: string, newEmoji: string)
    requires Inv(t)
    ensures Inv(AddActivity(t, newLabel, newEmoji))
  {
    var r := AddActivity(t, newLabel, newEmoji);
    if Trim(newLabel) != [] && Trim(newEmoji) != [] {
      var a := r.activities[|t.activities|];
      assert r.activities == t.activities + [a];
      UniqueKeysSnoc(t.activities, a);
    }
  }

  /** Deleting while the stopwatch is idle keeps the invariant; see DeleteWhileRunningBreaksInv for a running stopwatch. */
  lemma DeleteActivityPreservesInv(t: State, deleteKey: string)
    requires Inv(t) && !t.session.running
    ensures Inv(DeleteActivity(t, deleteKey))
  {
    if deleteKey != "" {
      var r := DeleteActivity(t, deleteKey);
      RemoveKeyUnique(t.activities, deleteKey);
      if r.session.selected.Present? {
        var k := r.session.selected.value;
        var a :| a in t.activities && a.key == k;
        assert a in r.activities;
      }
    }
  }

  /**
   * The Delete button of the modal is not disabled while running, and the
   * page behind the modal stays reachable from the keyboard. Deleting the
   * selected activity of a running stopwatch leaves it running with nothing
   * selected, and the next stop books the session under "null".
   */
  lemma DeleteWhileRunningBreaksInv()
    ensures var t := State([Activity("gym", "Gym", "x")], map[], Session(Present("gym"), true, Present(0), 0));
      var d := DeleteActivity(t, "gym");
      && Inv(t) && !Inv(d)
      && d.session.running && d.session.selected == Null
      && StopAndSave(d, 90000).totals == map["null" := 90000]
  {
    var t := State([Activity("gym", "Gym", "x")], map[], Session(Present("gym"), true, Present(0), 0));
    assert t.activities[0].key == "gym";
    assert "gym" in KeySet(t.activities);
  }

  lemma SelectPreservesInv(t: State, key: string)
    requires Inv(t) && !t.session.running && key in KeySet(t.activities)
    ensures Inv(Select(t, key))
  {
  }

  lemma StartPreservesInv(t: State, now: int)
    requires Inv(t)
    ensures Inv(Start(t, now))
  {
  }

  lemma TickPreservesInv(t: State, now: int)
    requires Inv(t)
    ensures Inv(Tick(t, now))
  {
  }

  /** Totals stay non-negative as long as the clock has not stepped back behind the start instant. */
  lemma StopAndSavePreservesInv(t: State, now: int)
    requires Inv(t)
    requires t.session.running ==> StartOrZero(t.session.startRef) <= now
    ensures Inv(StopAndSave(t, now))
  {
    var r := StopAndSave(t, now);
    if t.session.running {
      var key := PropertyKey(t.session.selected);
      forall k | k in r.totals
        ensures r.totals[k] >= 0
      {
        if k != key {
          assert r.totals[k] == t.totals[k];
        } else {
          assert r.totals[k] == Total(t.totals, key) + (now - StartOrZero(t.session.startRef));
        }
      }
    }
  }

  lemma ResetTodayPreservesInv(t: State)
    requires Inv(t)
    ensures Inv(ResetToday(t))
  {
  }

  /**
   * addActivity while running: the Save button of the modal is not disabled
   * while running either. The invariant survives, but the running session
   * is silently moved to the new activity, so the next stop books the whole
   * session there and nothing under the activity that was being timed.
   */
  lemma AddWhileRunningRetargets(t: State, newLabel: string, newEmoji: string, now: int)
    requires Inv(t) && t.session.running
    requires Trim(newLabel) != [] && Trim(newEmoji) != []
    ensures var r := AddActivity(t, newLabel, newEmoji);
      var key := MakeActivityKey(Trim(newLabel), KeySet(t.activities));
      var timed := t.session.selected.value;
      var s := StopAndSave(r, now);
      && Inv(r) && r.session.running
      && r.session.selected == Present(key) && key != timed
      && Total(s.totals, key) == Total(t.totals, key) + (now - StartOrZero(t.session.startRef))
      && Total(s.totals, timed) == Total(t.totals, timed)
  {
    AddActivityPreservesInv(t, newLabel, newEmoji);
  }

  /** addActivity as the disabled Add tile intends it: refused while the stopwatch runs. */
  function AddActivityWhenIdle(t: State, newLabel: string, newEmoji: string): (r: State)
    ensures t.session.running ==> r == t
    ensures !t.session.running ==> r == AddActivity(t, newLabel, newEmoji)
  {
    if t.session.running then t else AddActivity(t, newLabel, newEmoji)
  }

  /** deleteActivity as the disabled Delete tile intends it: refused while the stopwatch runs. */
  function DeleteActivityWhenIdle(t: State, deleteKey: string): (r: State)
    ensures t.session.running ==> r == t
    ensures !t.session.running ==> r == DeleteActivity(t, deleteKey)
  {
    if t.session.running then t else DeleteActivity(t, deleteKey)
  }

  /**
   * With the guard, adding keeps the invariant, and a running session keeps
   * timing the activity it started on: stopping it books the time there.
   */
  lemma GuardedAddKeepsSession(t: State, newLabel: string, newEmoji: string, now: int)
    requires Inv(t)
    ensures Inv(AddActivityWhenIdle(t, newLabel, newEmoji))
    ensures t.session.running ==>
      var timed := t.session.selected.value;
      Total(StopAndSave(AddActivityWhenIdle(t, newLabel, newEmoji), now).totals, timed)
        == Total(t.totals, timed) + (now - StartOrZero(t.session.startRef))
  {
    AddActivityPreservesInv(t, newLabel, newEmoji);
  }

  /**
   * With the guard, deleting keeps the invariant from every well-formed
   * state, and a running session still books its time under its activity.
   */
  lemma GuardedDeleteKeepsSession(t: State, deleteKey: string, now: int)
    requires Inv(t)
    ensures Inv(DeleteActivityWhenIdle(t, deleteKey))
    ensures t.session.running ==>
      var timed := t.session.selected.value;
      Total(StopAndSave(DeleteActivityWhenIdle(t, deleteKey), now).totals, timed)
        == Total(t.totals, timed) + (now - StartOrZero(t.session.startRef))
  {
    if !t.session.running {
      DeleteActivityPreservesInv(t, deleteKey);
    }
  }

  // ---------------------------------------------------------------------
  // Accumulation
  // ---------------------------------------------------------------------

  /** One whole session on `key`, from `t0` to `t1`, adds exactly `t1 - t0` to that key and nothing to any other. */
  lemma SessionCommits(t: State, key: string, t0: int, t1: int)
    requires Inv(t) && !t.session.running
    requires key in KeySet(t.activities) && key != ""
    ensures var r := StopAndSave(Start(Select(t, key), t0), t1);
      && Total(r.totals, key) == Total(t.totals, key) + (t1 - t0)
      && (forall k :: k != key ==> Total(r.totals, k) == Total(t.totals, k))
      && r.session == Idle
      && r.activities == t.activities
  {
    var s := Start(Select(t, key), t0);
    assert s.session.running && s.session.selected == Present(key) && s.session.startRef == Present(t0);
    var r := StopAndSave(s, t1);
    forall k | k != key
      ensures Total(r.totals, k) == Total(t.totals, k)
    {
      if k in t.totals {
        assert r.totals[k] == t.totals[k];
      }
    }
  }

  /** Two sessions on the same key accumulate: the total grows by both durations, nothing is overwritten. */
  lemma TwoSessionsAccumulate(t: State, key: string, t0: int, t1: int, t2: int, t3: int)
    requires Inv(t) && !t.session.running
    requires key in KeySet(t.activities) && key != ""
    requires t0 <= t1
    ensures var r1 := StopAndSave(Start(Select(t, key), t0), t1);
      var r2 := StopAndSave(Start(Select(r1, key), t2), t3);
      Total(r2.totals, key) == Total(t.totals, key) + (t1 - t0) + (t3 - t2)
  {
    var r1 := StopAndSave(Start(Select(t, key), t0), t1);
    SessionCommits(t, key, t0, t1);
    SelectPreservesInv(t, key);
    StartPreservesInv(Select(t, key), t0);
    StopAndSavePreservesInv(Start(Select(t, key), t0), t1);
    SessionCommits(r1, key, t2, t3);
  }

  /** The committed duration is read from the clock at stop time; an earlier display refresh does not matter. */
  lemma StopIgnoresLastTick(t: State, tick: int, now: int)
    ensures StopAndSave(Tick(t, tick), now) == StopAndSave(t, now)
  {
  }

  /** Select "gym", start at 0, stop at 90 000 ms: the gym total is 90 000 and the session is idle. */
  lemma GymScenario(activities: seq<Activity>)
    requires UniqueKeys(activities) && "gym" in KeySet(activities)
    ensures var r := StopAndSave(Start(Select(Mounted(activities, map[]), "gym"), 0), 90000);
      Total(r.totals, "gym") == 90000 && r.session == Idle
  {
    MountedInv(activities, map[]);
    SessionCommits(Mounted(activities, map[]), "gym", 0, 90000);
  }

  /**
   * A reset starts the day over: resetting twice is resetting once, and a
   * single session after an idle reset leaves exactly that session's
   * duration under its key and nothing else.
   */
  lemma SessionAfterReset(t: State, key: string, t0: int, t1: int)
    requires Inv(t) && !t.session.running
    requires key in KeySet(t.activities) && key != ""
    ensures ResetToday(ResetToday(t)) == ResetToday(t)
    ensures StopAndSave(Start(Select(ResetToday(t), key), t0), t1).totals == map[key := t1 - t0]
  {
    var z := ResetToday(t);
    ResetTodayPreservesInv(t);
    var s := Start(Select(z, key), t0);
    assert s.session.running && s.session.selected == Present(key) && s.session.startRef == Present(t0);
    assert s.totals == map[];
  }
}

=== FILE: text.dfy ===
/**
 * Character classes and whitespace trimming with JavaScript's meaning:
 * the characters `String.prototype.trim` strips are exactly those the
 * regular-expression class `\s` matches.
 */
module Text {

  /** ECMAScript WhiteSpace and LineTerminator code points. */
  const SpaceChars: set<char> := {
    '\t', '\n', '\U{B}', '\U{C}', '\r', ' ', '\U{A0}', '\U{1680}',
    '\U{2000}', '\U{2001}', '\U{2002}', '\U{2003}', '\U{2004}', '\U{2005}',
    '\U{2006}', '\U{2007}', '\U{2008}', '\U{2009}', '\U{200A}',
    '\U{2028}', '\U{2029}', '\U{202F}', '\U{205F}', '\U{3000}', '\U{FEFF}'
  }

  predicate IsSpace(c: char) {
    c in SpaceChars
  }

  predicate NoSpace(s: string) {
    forall i :: 0 <= i < |s| ==> !IsSpace(s[i])
  }

  /** The index of the first non-whitespace character at or after `from`, or `|s|`. */
  function SkipSpaces(s: string, from: nat): (k: nat)
    requires from <= |s|
    ensures from <= k <= |s|
    ensures forall i :: from <= i < k ==> IsSpace(s[i])
    ensures k < |s| ==> !IsSpace(s[k])
    decreases |s| - from
  {
    if from < |s| && IsSpace(s[from]) then SkipSpaces(s, from + 1) else from
  }

  /** One past the last non-whitespace character before `upto`, or `lower` if there is none from `lower` on. */
  function SkipSpacesBack(s: string, lower: nat, upto: nat): (k: nat)
    requires lower <= upto <= |s|
    ensures lower <= k <= upto
    ensures forall i :: k <= i < upto ==> IsSpace(s[i])
    ensures lower < k ==> !IsSpace(s[k - 1])
    decreases upto
  {
    if lower < upto && IsSpace(s[upto - 1]) then SkipSpacesBack(s, lower, upto - 1) else upto
  }

  /** `trimStart`: drops the leading whitespace run. */
  function TrimStart(s: string): (r: string)
    ensures |r| <= |s|
    ensures r == s[|s| - |r|..]
    ensures forall i :: 0 <= i < |s| - |r| ==> IsSpace(s[i])
    ensures |r| > 0 ==> !IsSpace(r[0])
  {
    s[SkipSpaces(s, 0)..]
  }

  /**
   * `trim`: drops the leading and the trailing whitespace runs. The result is
   * an infix of `s`, everything outside it is whitespace, and it neither
   * starts nor ends with whitespace.
   */
  function Trim(s: string): (r: string)
    ensures |r| <= |s|
    ensures |r| > 0 ==> !IsSpace(r[0]) && !IsSpace(r[|r| - 1])
    ensures var k := SkipSpaces(s, 0);
      && k + |r| <= |s|
      && r == s[k..k + |r|]
      && (forall i :: 0 <= i < k ==> IsSpace(s[i]))
      && (forall i :: k + |r| <= i < |s| ==> IsSpace(s[i]))
  {
    var a := SkipSpaces(s, 0);
    s[a..SkipSpacesBack(s, a, |s|)]
  }

  /** A string with no whitespace at either end is its own trim. */
  lemma TrimNoOp(s: string)
    requires |s| > 0 ==> !IsSpace(s[0]) && !IsSpace(s[|s| - 1])
    ensures Trim(s) == s
  {
  }

  lemma TrimIdempotent(s: string)
    ensures Trim(Trim(s)) == Trim(s)
  {
    TrimNoOp(Trim(s));
  }

  /** Skipping from the front stops exactly at the end of a leading whitespace run. */
  lemma SkipSpacesOverRun(w: string, b: string)
    requires forall i :: 0 <= i < |w| ==> IsSpace(w[i])
    requires |b| > 0 ==> !IsSpace(b[0])
    ensures SkipSpaces(w + b, 0) == |w|
  {
    var s := w + b;
    assert forall i :: 0 <= i < |w| ==> s[i] == w[i];
    assert |b| > 0 ==> s[|w|] == b[0];
  }
}
